=== FILE: README.md ===
# Boost bot: session and ledger engine in Dafny

This project models the core of a chat bot that runs timed "boost" sessions
in two channels (lanes):

- The **primary lane** is the Vinted boost channel. It runs several kinds of session: "1 link + 2 bonus", 10 favs, 5 favs and meal.
- The **secondary lane** is the Clemz boost channel. It runs one hourly session.

The bot records who posted a marketplace link during a session. It also records who confirmed with a heart reaction. When a session closes, it warns the participants who did not confirm.

Next to the sessions, the bot keeps a weekly per-user ledger:

- participations;
- bonus stock;
- a photo counter and the photo fingerprints already seen (two new attachments in the sales channel make one bonus);
- warnings.

Every Sunday at 23:59 the bot clears the ledger, reporting it first when the admin channel exists.

Everything is modelled as pure functions over immutable values:

- **State.** `BotState.State` holds the ledger, the two lanes and the scheduler's last processed minute.
- **Events.** `Events.Step` handles one message or reaction.
- **Scheduler.** `Engine.Tick` handles one scheduler minute. `Schedule.PrimaryRule` and `Schedule.SecondaryRule` are the rule tables it applies.
- **Weekly task.** `Engine.WeeklyReset` is the Sunday task.
- **Commands.** `Admin.Run` runs the admin commands.
- **Warnings.** Each event and each tick returns its warnings as a set of (user, reason) pairs. The contracts prove that the warning counters in the ledger move by exactly those warnings. Two operations lower the counters without raising any warning: the `!unwarn` command (`Admin.Run`) and the Sunday reset (`Engine.WeeklyReset`).

Module layout, leaves first:

- `Wrappers` (`wrappers.dfy`): `Option`.
- `OrderedDict` (`ordered_dict.dfy`): an insertion-ordered map from user id to integer. It models the Python dicts that the bot iterates, so that key order is faithful.
- `Ranking` (`ranking.dfy`): the stable top-10 sort.
- `LedgerStore` (`ledger.dfy`): the five maps and their helpers.
- `Attachments` (`attachments.dfy`): the `name-size` fingerprint.
- `Photos` (`photos.dfy`): the photo-to-bonus accumulator.
- `Sessions` (`sessions.dfy`): the lanes, start, close and recap.
- `BotState` (`state.dfy`): the whole state and its invariant.
- `Events` (`events.dfy`): the message and reaction handlers.
- `Schedule` (`schedule.dfy`): the rule tables.
- `Engine` (`engine.dfy`): the scheduler tick and the weekly task.
- `Admin` (`admin.dfy`): the commands.

Some quirks of the schedule, proved as written:

- **20:00 is a close.** The evening meal close at 20:00 comes first in the rule order. So the 10-favs start listed for 20:00 can never fire.
- **Every primary session lasts 14 minutes.** The default rule closes the primary lane at minutes 14, 29, 44 and 59. So every primary session, meal and favs included, is closed 14 minutes after it opens. The 12:30 meal session is closed at 12:44, with its recap, and a default session opens at 12:45.
- **The recap link total.** The total reads only the plain-link counters, and only "1 link + 2 bonus" sessions fill them. So the recap of a meal or favs session always reports 0 links.

Behaviour of the code worth knowing:

- Meal and favs sessions are cut short by the default close rule (see above).
- The recap's link total counts only the plain links of "1 link + 2 bonus" sessions.
- A warning is only recorded when the admin channel exists.
- The weekly task has no duplicate guard.
- A tick leaves a lane alone while its channel cannot be found, so a session left open then is neither closed, recapped nor warned about until the channel is back.
- Ties in the ranking keep the order in which users first got a participation entry.

## Model

| member | source | states |
|---|---|---|
| `OrderedDict.SumAdd` | bot_boost.py:185 | adding n to one user's counter raises the sum of the values by exactly n, whether the key was new or not |
| `OrderedDict.SumNonNegative` | bot_boost.py:185 | a dict with no negative value has a non-negative sum |
| `Ranking.SortDesc` | bot_boost.py:142 | the sort returns a permutation (same multiset, same length) of the items |
| `Ranking.SortDescSortsStably` | bot_boost.py:142 | the sort is non-increasing by score, and the entries with any given score keep their input order, as Python's stable reverse sort does |
| `Ranking.Top10` | bot_boost.py:140-143 | the ranking is the first min(10, n) entries of the stable descending sort of the participation items |
| `Ranking.Top10Ranks` | bot_boost.py:140-143 | at most ten entries, each a user's current participation count, highest first; any user left out scores no more than the tenth entry |
| `LedgerStore.AddParticipation` | bot_boost.py:54-57 | only u's participation count moves, by points; a new user goes to the end of the key order and a known user keeps their place; nothing else changes; non-negative points keep the ledger valid |
| `LedgerStore.AddBonus` | bot_boost.py:60-63 | only u's bonus stock moves, by points; non-negative points keep the ledger valid |
| `LedgerStore.ConsumeBonus` | bot_boost.py:70-78 | the amount used is the smaller of the stock and the request; when positive, the stock drops by exactly that much; otherwise the ledger is unchanged; the stock never goes negative |
| `LedgerStore.AddWarning` | bot_boost.py:81-84 | u's warning count goes up by one and nobody else's moves |
| `LedgerStore.AddWarnings` | bot_boost.py:210-216 | each user of the set gets exactly one more warning; everyone else is unchanged |
| `LedgerStore.RemoveWarning` | bot_boost.py:103-107 | the count drops by `count` but is clamped at 0; other users unchanged |
| `LedgerStore.SetPhotoCounter` | bot_boost.py:114-116 | sets u's carry; a carry of 0 or 1 keeps the ledger valid |
| `LedgerStore.SetRecorded` | bot_boost.py:119-128 | replaces u's recorded fingerprints and no other user's |
| `LedgerStore.ResetWeek` | bot_boost.py:131-137 | every map is emptied: every user reads 0 participations, bonus, carry and warnings, and has no recorded fingerprint |
| `Attachments.Decimal` | bot_boost.py:386 | the size is written as a non-empty run of decimal digits |
| `Attachments.ParseDecimalInvertsDecimal` | bot_boost.py:386 | reading the digits back gives the size (decimal round trip) |
| `Attachments.Fingerprint` | bot_boost.py:386 | the fingerprint is the name, then one dash, then the size's decimal digits |
| `Attachments.FingerprintInjective` | bot_boost.py:386 | two attachments share a fingerprint only if they have the same name and size, even when names contain dashes |
| `Photos.Fingerprints` | bot_boost.py:385-386 | one fingerprint per attachment, in order |
| `Photos.Remember` | bot_boost.py:119-128 | records the fingerprint and reports "new" exactly when it was not recorded before |
| `Photos.RememberAll` | bot_boost.py:384-388 | after the loop, the user's recorded set is the old set plus every fingerprint of the message |
| `Photos.RememberAllCountsFresh` | bot_boost.py:384-388 | the loop counts the distinct fingerprints of the message not recorded before; repeats, earlier or within the message, count nothing |
| `Photos.Credit` | bot_boost.py:390-397 | with carry c and k new photos, the bonus grows by (c+k)/2 and the carry becomes (c+k)%2 |
| `Photos.PhotoMessage` | bot_boost.py:381-397 | a message with no new fingerprint leaves the ledger unchanged; otherwise it records the fingerprints and credits the new ones |
| `Photos.RecordThenCredit` | bot_boost.py:388-397 | recording any fingerprint set and then crediting k > 0 photos adds (c+k)/2 to the bonus, leaves carry (c+k)%2, and keeps every other counter and the ledger's validity |
| `Photos.PhotoMessageAccumulates` | bot_boost.py:383-397 | bonus +(c+k)/2 and carry (c+k)%2, all fingerprints recorded, other users, participations and warnings untouched, and the ledger stays valid |
| `Photos.PhotoMessageConserves` | bot_boost.py:390-397 | twice the bonus plus the carry grows by exactly the number of new fingerprints, and the carry stays 0 or 1 |
| `Photos.PhotoMessageIdempotent` | bot_boost.py:383-397 | posting the same attachments again changes nothing |
| `Sessions.StartPrimary` | bot_boost.py:169-175 | from any prior state, open or not, the lane becomes an open session of the kind with no participants, counts or validations |
| `Sessions.StartSecondary` | bot_boost.py:231-234 | from any prior state the secondary lane becomes open and empty |
| `Sessions.Judge` | bot_boost.py:187-196 | no verdict iff there are no participants; ok and notOk partition the participants; a user fails iff they participated, did not react and there were at least two participants |
| `Sessions.WarningsFor` | bot_boost.py:206-216 | one warning per failing user with the lane's reason, and none at all without the admin channel |
| `Sessions.ClosePrimary` | bot_boost.py:178-228 | an idle lane is left as is; an open lane is judged, its plain links totalled and the lane reset; warnings are exactly the failing users (admin channel present), each recorded once in the ledger; the link total is never negative |
| `Sessions.CloseSecondary` | bot_boost.py:237-278 | the same for the secondary lane, with its own warning reason and no link total |
| `Sessions.LoneParticipantPasses` | bot_boost.py:190-193 | a single participant passes without reacting and nobody is warned |
| `Sessions.OneOfTwoUnvalidated` | bot_boost.py:194-216 | participants {a, b} with only a reacting: a passes, b fails and b alone gets exactly one warning |
| `Sessions.LinkTotalOnlyCountsOneLinkTwoBonus` | bot_boost.py:183-185 | a session of any other kind reports a link total of 0 |
| `Events.Raise` | bot_boost.py:329-335 | a warning is emitted and counted only when the admin channel exists |
| `Events.Join` | bot_boost.py:348-350 | the author joins the participants only when the lane is open |
| `Events.PrimaryLink` | bot_boost.py:314-371 | a primary-lane link leaves the secondary lane, the scheduler key, the photo carries and the recorded fingerprints alone, and every warning it emits is counted once |
| `Events.BonusLinkEffects` | bot_boost.py:325-350 | no participation; with an empty stock, a warning (admin present) and no consumption; otherwise the stock drops by exactly 1; in a "1 link + 2 bonus" session the author's bonus-link count rises by 1 and the third and later links warn; other users' counts, the plain-link counts, the validations, the kind and the open flag are unchanged; an open lane gains the author |
| `Events.PlainLinkEffects` | bot_boost.py:352-371 | participations +1 for the author only; in a "1 link + 2 bonus" session the author's link count and the total of the link counts each rise by 1, and the second and later links warn; other users' link counts and the rest of the lane (validations, kind, open flag, bonus-link counts) are unchanged; with no open session the lane is untouched |
| `Events.SecondaryLink` | bot_boost.py:374-378 | any qualifying link, "bonus" or not, earns one participation; the author joins only an open secondary session |
| `Events.React` | bot_boost.py:402-418 | a heart from anyone but the bot validates the user in the lane it was posted in, only while that lane is open; any other reaction changes nothing |
| `Events.Step` | bot_boost.py:305-418 | messages from bots, link-less messages outside the sales channel and messages in other channels change nothing; a link in the primary or secondary lane, a sales-channel message and a reaction each reach their own handler; an event never moves the scheduler key, every warning it emits is counted once, and it warns only with the admin channel |
| `Events.PrimaryLinkPreservesConsistent` | bot_boost.py:314-371 | a primary-lane link keeps the ledger non-negative and the lane well formed |
| `Events.BonusLinkPreservesConsistent` | bot_boost.py:325-350 | a "bonus" link keeps the state consistent |
| `Events.CountedLinkKeepsLaneValid` | bot_boost.py:358-367 | counting a plain link in a "1 link + 2 bonus" session keeps the lane's counters confined to its participants |
| `Events.PlainLinkPreservesConsistent` | bot_boost.py:352-371 | a plain link keeps the state consistent |
| `Events.ReactPreservesConsistent` | bot_boost.py:402-418 | a reaction keeps the state consistent |
| `Events.StepPreservesConsistent` | bot_boost.py:305-418 | every event keeps the counters non-negative, the photo carry in {0, 1}, an idle lane empty and the link counters confined to participants of a "1 link + 2 bonus" session |
| `Events.OneLinkThreeBonusScenario` | bot_boost.py:325-367 | one plain link then three bonus links from a stock of 5: stock 2, three bonus links counted, and one warning, on the third bonus link |
| `Schedule.SecondaryRule` | bot_boost.py:574-586 | the secondary lane opens exactly at minute 0 and closes exactly at minute 59 |
| `Schedule.PrimaryRuleTable` | bot_boost.py:592-685 | closed form of the first-match table: meal opens only at 12:30 and 19:00; 10-favs opens only at 10:00 and 14:00 (20:00 is a close); which quarter hours open the default session; and every minute that closes |
| `Schedule.EveryOpenClosedFourteenMinutesLater` | bot_boost.py:667-685 | any minute that opens a primary session is followed 14 minutes later by a close |
| `BotState.InitialConsistent` | bot_boost.py:35-41 | the start-up state, with an empty ledger, idle lanes and no minute processed, is consistent, so every state reached from it by events and ticks is |
| `Engine.SecondaryTick` | bot_boost.py:573-586 | without the secondary channel a tick does nothing to that lane; otherwise the secondary part only touches that lane and the warning counters; at :59 it warns exactly the non-validated participants of an open session of two or more (admin channel present); at any other minute it warns nobody |
| `Engine.PrimaryTick` | bot_boost.py:588-685 | without the primary channel a tick does nothing to that lane; otherwise the primary part only touches that lane and the warning counters; on a Close minute it warns exactly the non-validated participants of an open session of two or more (admin channel present); on any other minute it warns nobody |
| `Engine.TickWarnings` | bot_boost.py:573-685 | the warnings of a new minute are exactly those of the lanes it closes, with each lane's reason; a minute that closes nothing warns nobody |
| `Engine.Tick` | bot_boost.py:556-685 | a tick for the minute already processed does nothing; otherwise the minute is remembered, only warning counters move, and every warning is counted once |
| `Engine.SecondaryTickPreservesConsistent` | bot_boost.py:573-586 | the secondary part of a tick keeps the state consistent |
| `Engine.PrimaryTickPreservesConsistent` | bot_boost.py:588-685 | the primary part of a tick keeps the state consistent |
| `Engine.TickPreservesConsistent` | bot_boost.py:556-685 | every tick keeps the state consistent |
| `Engine.SecondaryLaneFollowsSchedule` | bot_boost.py:574-586 | on a new minute the secondary lane is opened afresh at :00, closed at :59 and untouched otherwise |
| `Engine.PrimaryLaneFollowsSchedule` | bot_boost.py:588-685 | on a new minute the primary lane opens a fresh session, closes, or stays as it was, as the first matching rule says |
| `Engine.LunchSessionClosedAtTwelveFortyFour` | bot_boost.py:593-600 | the meal session opened at 12:30 is closed with a recap at 12:44 |
| `Engine.LowOf` | bot_boost.py:529-533 | a user is listed iff they have a participation entry below 5 |
| `Engine.Rows` | bot_boost.py:519-527 | one report row per user with a participation entry, in insertion order, holding that user's participations, bonus stock and warnings, each 0 when absent |
| `Engine.WeeklyReset` | bot_boost.py:509-547 | acts only when the weekday is 6; it then empties all five maps, with or without the admin channel; it reports only with that channel; the report is "nobody this week" exactly when no participation was recorded; a report with participants lists them as `Rows` does, and the low list is exactly the users under 5 participations |
| `Admin.Run` | bot_boost.py:463-502 | a non-admin or a negative count changes nothing; accepted commands keep the ledger valid |
| `Admin.RemoveParticipation` | bot_boost.py:484-490 | participations drop by points, clamped at 0; a user without an entry gets one at the end of the key order, and a known user keeps their place |
| `Admin.RunEffects` | bot_boost.py:469-502 | `!add` adds the points; `!remove` and `!unwarn` subtract, clamped at 0; other users' counters and every other map are untouched |
| `Admin.Stats` | bot_boost.py:446-460 | the user's participations, bonus stock and warnings, each the stored value when present and 0 when absent, never negative in a valid ledger |

## Left out

- Chat-platform plumbing is not modelled: bot setup, intents, `bot.run`, command dispatch and the permission decorator's mechanics. Admin permission is a boolean input.
- Looking up a channel is reduced to a boolean "channel available". `Engine.Channels` and `Events.Env` carry these booleans.
- The text of every message is not modelled: formatting, mentions, localisation and the three-warning ban hint. Announcements are datatype values, and a warning notice is a (user, reason) pair without its running count.
- JSON load and save are not modelled, because persistence is an external collaborator. The ledger lives in memory.
- The string and integer conversions of user ids are not modelled: one `nat` id is used.
- The marketplace URL regular expression and Unicode lower-casing are not modelled. A message carries the booleans `hasLink` and `mentionsBonus`.
- Wall-clock time and time zones are not modelled. A tick takes the date, hour and minute as integers, and the weekly task takes the weekday.
- Async interleaving is not modelled. Each event and tick is one atomic step. In the source, the scheduler could run while a handler awaits a warning notice.
- The weekly task's daily 23:59 trigger is not modelled, because it is the timer library's concern. The Sunday check and the reset are modelled.
- `Events.Raise`: the source's `add_warning` increments the counter even without a channel. Every caller guards the call on the admin channel, so the model only has the guarded form.

=== FILE: admin.dfy ===
/**
 The ledger side of the chat commands: the admin-only `!add`, `!remove`
 and `!unwarn`, which refuse a negative count, and the read-only `!stats`.
 */
module Admin {
  import opened OrderedDict
  import opened LedgerStore

  datatype Command =
    | AddParticipations(member: User, points: int)
    | RemoveParticipations(member: User, points: int)
    | Unwarn(member: User, count: int)

  /** `NotAdmin`: the permission check stops the command; `Negative`: "use a positive number". */
  datatype Reply = Applied | Negative | NotAdmin

  function CountOf(c: Command): int
  {
    match c
    case AddParticipations(_, points) => points
    case RemoveParticipations(_, points) => points
    case Unwarn(_, count) => count
  }

  /**
   Runs one admin command. A non-admin or a negative count changes
   nothing; a valid ledger stays valid.
   */
  function Run(l: Ledger, isAdmin: bool, c: Command): (r: (Ledger, Reply))
    ensures !isAdmin ==> r == (l, NotAdmin)
    ensures isAdmin && CountOf(c) < 0 ==> r == (l, Negative)
    ensures isAdmin && CountOf(c) >= 0 ==> r.1 == Applied
    ensures Valid(l) ==> Valid(r.0)
  {
    if !isAdmin then (l, NotAdmin)
    else if CountOf(c) < 0 then (l, Negative)
    else
      match c
      case AddParticipations(u, points) => (AddParticipation(l, u, points), Applied)
      case RemoveParticipations(u, points) => (RemoveParticipation(l, u, points), Applied)
      case Unwarn(u, count) => (RemoveWarning(l, u, count), Applied)
  }

  /** The body of `!remove`: lowers u's participations by `points`, never below zero. */
  function RemoveParticipation(l: Ledger, u: User, points: int): (r: Ledger)
    ensures Get(r.participations, u) >= 0
    ensures Get(r.participations, u) >= Get(l.participations, u) - points
    ensures Get(r.participations, u) > 0 ==> Get(r.participations, u) == Get(l.participations, u) - points
    ensures u in r.participations.score
    ensures u in l.participations.score ==> r.participations.order == l.participations.order
    ensures u !in l.participations.score ==> r.participations.order == l.participations.order + [u]
    ensures forall w :: w != u ==> Get(r.participations, w) == Get(l.participations, w)
    ensures r == l.(participations := r.participations)
    ensures Valid(l) ==> Valid(r)
  {
    var current := Get(l.participations, u);
    l.(participations := Put(l.participations, u, if current - points > 0 then current - points else 0))
  }

  /** What each accepted command does to the member's counters; nobody else's change. */
  lemma RunEffects(l: Ledger, c: Command)
    requires CountOf(c) >= 0
    ensures var r := Run(l, true, c).0;
            match c
            case AddParticipations(u, points) =>
              && Get(r.participations, u) == Get(l.participations, u) + points
              && (forall w :: w != u ==> Get(r.participations, w) == Get(l.participations, w))
              && r == l.(participations := r.participations)
            case RemoveParticipations(u, points) =>
              && Get(r.participations, u) == (if Get(l.participations, u) > points then Get(l.participations, u) - points else 0)
              && (forall w :: w != u ==> Get(r.participations, w) == Get(l.participations, w))
              && r == l.(participations := r.participations)
            case Unwarn(u, count) =>
              && Lookup(r.warnings, u) == (if Lookup(l.warnings, u) > count then Lookup(l.warnings, u) - count else 0)
              && (forall w :: w != u ==> Lookup(r.warnings, w) == Lookup(l.warnings, w))
              && r == l.(warnings := r.warnings)
  {
  }

  /** `!stats`: a user's participations, bonus stock and warnings, each 0 when absent. */
  function Stats(l: Ledger, u: User): (r: (int, int, int))
    ensures Valid(l) ==> r.0 >= 0 && r.1 >= 0 && r.2 >= 0
    ensures u !in l.participations.score && u !in l.bonus && u !in l.warnings ==> r == (0, 0, 0)
    ensures u in l.participations.score ==> r.0 == l.participations.score[u]
    ensures u in l.bonus ==> r.1 == l.bonus[u]
    ensures u in l.warnings ==> r.2 == l.warnings[u]
    ensures u !in l.participations.score ==> r.0 == 0
    ensures u !in l.bonus ==> r.1 == 0
    ensures u !in l.warnings ==> r.2 == 0
  {
    (Get(l.participations, u), Lookup(l.bonus, u), Lookup(l.warnings, u))
  }
}

=== FILE: attachments.dfy ===
/**
 The attachment fingerprint used to deduplicate photos: the file name, a
 dash, and the size in decimal (`f"{filename}-{size}"`).
 */
module Attachments {

  datatype Attachment = Attachment(filename: string, size: nat)

  predicate IsDigit(c: char)
  {
    '0' <= c <= '9'
  }

  predicate AllDigits(s: string)
  {
    forall i :: 0 <= i < |s| ==> IsDigit(s[i])
  }

  function DigitChar(d: nat): (c: char)
    requires d < 10
    ensures IsDigit(c)
  {
    (48 + d) as char
  }

  function DigitValue(c: char): nat
    requires IsDigit(c)
  {
    (c as int) - 48
  }

  /** `str(n)` for a non-negative integer: no sign, no leading zero. */
  function Decimal(n: nat): (s: string)
    ensures |s| >= 1 && AllDigits(s)
    decreases n
  {
    if n < 10 then [DigitChar(n)] else Decimal(n / 10) + [DigitChar(n % 10)]
  }

  /** Reads a run of digits back as a number. */
  function ParseDecimal(s: string): nat
    requires AllDigits(s)
  {
    if s == [] then 0 else 10 * ParseDecimal(s[..|s| - 1]) + DigitValue(s[|s| - 1])
  }

  lemma {:induction false} ParseDecimalInvertsDecimal(n: nat)
    ensures ParseDecimal(Decimal(n)) == n
    decreases n
  {
    if n >= 10 {
      ParseDecimalInvertsDecimal(n / 10);
      var s := Decimal(n);
      assert s[..|s| - 1] == Decimal(n / 10);
    }
  }

  function Fingerprint(a: Attachment): (fp: string)
    ensures |fp| == |a.filename| + 1 + |Decimal(a.size)|
    ensures fp[..|a.filename|] == a.filename && fp[|a.filename|] == '-'
    ensures fp[|a.filename| + 1..] == Decimal(a.size)
  {
    a.filename + "-" + Decimal(a.size)
  }

  /**
   Two attachments share a fingerprint only when they have the same name and
   size: the last dash separates the name (which may contain dashes) from the
   size (which never does).
   */
  lemma FingerprintInjective(a: Attachment, b: Attachment)
    ensures Fingerprint(a) == Fingerprint(b) ==> a == b
  {
    if Fingerprint(a) == Fingerprint(b) {
      var s := Fingerprint(a);
      var da, db := Decimal(a.size), Decimal(b.size);
      DashThenDigits(s, a.filename, da);
      DashThenDigits(s, b.filename, db);
      assert !IsDigit(s[|s| - |da| - 1]) && !IsDigit(s[|s| - |db| - 1]);
      assert |da| == |db|;
      assert da == s[|s| - |da|..] == db;
      assert a.filename == s[..|s| - |da| - 1] == b.filename;
      ParseDecimalInvertsDecimal(a.size);
      ParseDecimalInvertsDecimal(b.size);
    }
  }

  /** In name-dash-digits, the dash sits just before the digits and only digits follow it. */
  lemma DashThenDigits(s: string, f: string, d: string)
    requires s == f + "-" + d && AllDigits(d)
    ensures s[|s| - |d| - 1] == '-'
    ensures forall i :: |s| - |d| <= i < |s| ==> IsDigit(s[i])
  {
    forall i | |s| - |d| <= i < |s| ensures IsDigit(s[i]) {
      assert s[i] == d[i - |f| - 1];
    }
  }
}

=== FILE: engine.dfy ===
/**
 The two periodic tasks: the once-a-minute session scheduler, guarded
 against processing the same minute twice, and the daily 23:59 task that
 reports and clears the ledger on Sundays.
 */
module Engine {
  import opened Wrappers
  import opened OrderedDict
  import opened LedgerStore
  import opened Sessions
  import opened BotState
  import opened Schedule

  /** The local wall-clock reading of one tick; `date` stands for the calendar date. */
  datatype Clock = Clock(date: int, hour: int, minute: int)

  /** Which channels the bot can currently find. */
  datatype Channels = Channels(primary: bool, secondary: bool, admin: bool)

  /**
   What the scheduler announces. A close is announced whether or not a
   session was open; `recap` is the judgement of the session it closed.
   */
  datatype Announcement =
    | SecondaryOpened(hour: int)
    | SecondaryClosed(recap: Option<Recap>)
    | PrimaryOpened(kind: Kind)
    | PrimaryClosed(recap: Option<Recap>, linkTotal: int)

  datatype TickResult = TickResult(state: State, announcements: seq<Announcement>, warned: set<Warning>)

  /** The secondary-lane part of a tick. */
  function SecondaryTick(s: State, hour: int, minute: int, ch: Channels): (r: TickResult)
    ensures r.state.primary == s.primary && r.state.lastTick == s.lastTick
    ensures !ch.secondary ==> r == TickResult(s, [], {})
    ensures r.state.ledger == s.ledger.(warnings := r.state.ledger.warnings)
    ensures WarningsRecorded(s.ledger, r.state.ledger, r.warned)
    ensures forall w :: w in r.warned ==> w.reason == SecondaryNotValidated && ch.admin
    ensures ch.secondary && SecondaryRule(minute) == CloseHour ==>
      forall w :: w in r.warned <==>
        && ch.admin && s.secondary.active
        && w.user in s.secondary.participants && w.user !in s.secondary.validated
        && |s.secondary.participants| >= 2 && w.reason == SecondaryNotValidated
    ensures !ch.secondary || SecondaryRule(minute) != CloseHour ==> r.warned == {}
  {
    if !ch.secondary then TickResult(s, [], {})
    else
      match SecondaryRule(minute)
      case OpenHour => TickResult(s.(secondary := StartSecondary(s.secondary)), [SecondaryOpened(hour)], {})
      case CloseHour =>
        var c := CloseSecondary(s.secondary, s.ledger, ch.admin);
        forall u ensures Raised(c.warned, u) == if Warning(u, SecondaryNotValidated) in c.warned then {SecondaryNotValidated} else {} {
          RaisedBySingleReason(c.warned, SecondaryNotValidated, u);
        }
        TickResult(s.(secondary := c.lane, ledger := c.ledger), [SecondaryClosed(c.recap)], c.warned)
      case Idle => TickResult(s, [], {})
  }

  /** The primary-lane part of a tick: the first matching rule, if the lane's channel exists. */
  function PrimaryTick(s: State, hour: int, minute: int, ch: Channels): (r: TickResult)
    ensures r.state.secondary == s.secondary && r.state.lastTick == s.lastTick
    ensures !ch.primary ==> r == TickResult(s, [], {})
    ensures r.state.ledger == s.ledger.(warnings := r.state.ledger.warnings)
    ensures WarningsRecorded(s.ledger, r.state.ledger, r.warned)
    ensures forall w :: w in r.warned ==> w.reason == PrimaryNotValidated && ch.admin
    ensures ch.primary && PrimaryRule(hour, minute) == Close ==>
      forall w :: w in r.warned <==>
        && ch.admin && s.primary.active
        && w.user in s.primary.participants && w.user !in s.primary.validated
        && |s.primary.participants| >= 2 && w.reason == PrimaryNotValidated
    ensures !ch.primary || PrimaryRule(hour, minute) != Close ==> r.warned == {}
  {
    if !ch.primary then TickResult(s, [], {})
    else
      match PrimaryRule(hour, minute)
      case Open(kind) => TickResult(s.(primary := StartPrimary(s.primary, kind)), [PrimaryOpened(kind)], {})
      case Close =>
        var c := ClosePrimary(s.primary, s.ledger, ch.admin);
        forall u ensures Raised(c.warned, u) == if Warning(u, PrimaryNotValidated) in c.warned then {PrimaryNotValidated} else {} {
          RaisedBySingleReason(c.warned, PrimaryNotValidated, u);
        }
        TickResult(s.(primary := c.lane, ledger := c.ledger), [PrimaryClosed(c.recap, c.linkTotal)], c.warned)
      case Nothing => TickResult(s, [], {})
  }

  function KeyOf(now: Clock): MinuteKey
  {
    MinuteKey(now.date, now.hour, now.minute)
  }

  /**
   `session_scheduler`: a minute already processed is a no-op; otherwise it
   is remembered (whatever channels exist), and the secondary lane, then the
   primary lane, act on it. Only the warning counters of the ledger can move.
   */
  function Tick(s: State, now: Clock, ch: Channels): (r: TickResult)
    ensures s.lastTick == Some(KeyOf(now)) ==> r == TickResult(s, [], {})
    ensures r.state.lastTick == Some(KeyOf(now))
    ensures r.state.ledger == s.ledger.(warnings := r.state.ledger.warnings)
    ensures WarningsRecorded(s.ledger, r.state.ledger, r.warned)
    ensures r.warned != {} ==> ch.admin
  {
    if s.lastTick == Some(KeyOf(now)) then
      assert forall u :: Raised({}, u) == {};
      TickResult(s, [], {})
    else
      var s0 := s.(lastTick := Some(KeyOf(now)));
      var a := SecondaryTick(s0, now.hour, now.minute, ch);
      var b := PrimaryTick(a.state, now.hour, now.minute, ch);
      WarningsRecordedCompose(s.ledger, a.state.ledger, b.state.ledger, a.warned, b.warned);
      TickResult(b.state, a.announcements + b.announcements, a.warned + b.warned)
  }

  lemma SecondaryTickPreservesConsistent(s: State, hour: int, minute: int, ch: Channels)
    requires Consistent(s)
    ensures Consistent(SecondaryTick(s, hour, minute, ch).state)
  {
  }

  lemma PrimaryTickPreservesConsistent(s: State, hour: int, minute: int, ch: Channels)
    requires Consistent(s)
    ensures Consistent(PrimaryTick(s, hour, minute, ch).state)
  {
  }

  /** Every tick keeps the state consistent. */
  lemma TickPreservesConsistent(s: State, now: Clock, ch: Channels)
    requires Consistent(s)
    ensures Consistent(Tick(s, now, ch).state)
  {
    if s.lastTick != Some(KeyOf(now)) {
      var s0 := s.(lastTick := Some(KeyOf(now)));
      SecondaryTickPreservesConsistent(s0, now.hour, now.minute, ch);
      var a := SecondaryTick(s0, now.hour, now.minute, ch);
      PrimaryTickPreservesConsistent(a.state, now.hour, now.minute, ch);
    }
  }

  /** A user who did not react in an open session of at least two participants, closed by this tick. */
  predicate FailsAtClose(participants: set<User>, validated: set<User>, active: bool, u: User)
  {
    active && u in participants && u !in validated && |participants| >= 2
  }

  /**
   The warnings of a new minute are exactly those of the lanes it closes:
   with the admin channel, every non-validated participant of a closing
   session of two or more, once per lane; on other minutes, none.
   */
  lemma TickWarnings(s: State, now: Clock, ch: Channels)
    requires s.lastTick != Some(KeyOf(now))
    ensures var r := Tick(s, now, ch);
            forall w :: w in r.warned <==>
              || (&& w.reason == SecondaryNotValidated && ch.admin && ch.secondary && SecondaryRule(now.minute) == CloseHour
                  && FailsAtClose(s.secondary.participants, s.secondary.validated, s.secondary.active, w.user))
              || (&& w.reason == PrimaryNotValidated && ch.admin && ch.primary && PrimaryRule(now.hour, now.minute) == Close
                  && FailsAtClose(s.primary.participants, s.primary.validated, s.primary.active, w.user))
  {
    var s0 := s.(lastTick := Some(KeyOf(now)));
    var a := SecondaryTick(s0, now.hour, now.minute, ch);
    var b := PrimaryTick(a.state, now.hour, now.minute, ch);
    assert a.state.primary == s.primary;
    assert Tick(s, now, ch).warned == a.warned + b.warned;
  }

  /**
   On a new minute with its channel present, the secondary lane is opened
   afresh at minute 0, closed at minute 59 and left alone otherwise.
   */
  lemma SecondaryLaneFollowsSchedule(s: State, now: Clock, ch: Channels)
    requires s.lastTick != Some(KeyOf(now)) && ch.secondary
    ensures var r := Tick(s, now, ch).state.secondary;
            && (now.minute == 0 ==> r == IdleSecondary.(active := true))
            && (now.minute == 59 ==> !r.active)
            && (now.minute != 0 && now.minute != 59 ==> r == s.secondary)
  {
  }

  /**
   On a new minute with its channel present, the primary lane does what
   the first matching rule says: a fresh session of the rule's kind, a
   closed and reset lane, or nothing.
   */
  lemma PrimaryLaneFollowsSchedule(s: State, now: Clock, ch: Channels)
    requires s.lastTick != Some(KeyOf(now)) && ch.primary
    ensures var r := Tick(s, now, ch).state.primary;
            && (PrimaryRule(now.hour, now.minute).Open? ==>
                  r == IdlePrimary.(active := true, kind := Some(PrimaryRule(now.hour, now.minute).kind)))
            && (PrimaryRule(now.hour, now.minute) == Close ==>
                  && !r.active
                  && (s.primary.active ==> r == IdlePrimary)
                  && (!s.primary.active ==> r == s.primary))
            && (PrimaryRule(now.hour, now.minute) == Nothing ==> r == s.primary)
  {
  }

  /**
   The meal session opened at 12:30 is already closed, with its recap, by
   the default rule at 12:44.
   */
  lemma LunchSessionClosedAtTwelveFortyFour(s: State, date: int, ch: Channels)
    requires ch.primary && s.lastTick != Some(MinuteKey(date, 12, 30))
    ensures var atOpen := Tick(s, Clock(date, 12, 30), ch);
            var closed := Tick(atOpen.state, Clock(date, 12, 44), ch);
            && atOpen.state.primary.active && atOpen.state.primary.kind == Some(Meal)
            && !closed.state.primary.active
            && closed.announcements == [PrimaryClosed(Some(Judge({}, {})), 0)]
  {
  }

  /** Weekly report row: a user's participations, bonus stock and warnings. */
  datatype Row = Row(user: User, participations: int, bonus: int, warnings: int)

  datatype WeeklyReport = NobodyThisWeek | Summary(rows: seq<Row>, low: seq<User>)

  /** Users among `keys` with fewer than 5 participations. */
  function LowOf(keys: seq<User>, d: Dict): (r: seq<User>)
    ensures forall u :: u in r <==> u in keys && Get(d, u) < 5
  {
    if keys == [] then []
    else (if Get(d, keys[0]) < 5 then [keys[0]] else []) + LowOf(keys[1..], d)
  }

  /** One row per user with a participation entry, in insertion order. */
  function Rows(l: Ledger): (r: seq<Row>)
    ensures |r| == |l.participations.order|
    ensures forall i :: 0 <= i < |r| ==> r[i].user == l.participations.order[i]
    ensures forall i :: 0 <= i < |r| ==>
      && r[i].participations == Get(l.participations, r[i].user)
      && r[i].bonus == Lookup(l.bonus, r[i].user)
      && r[i].warnings == Lookup(l.warnings, r[i].user)
  {
    var keys := l.participations.order;
    seq(|keys|, i requires 0 <= i < |keys| =>
      Row(keys[i], Get(l.participations, keys[i]), Lookup(l.bonus, keys[i]), Lookup(l.warnings, keys[i])))
  }

  /**
   `weekly_reset`: acts only on Sundays (weekday 6). It reports when the
   admin channel exists, and then clears all five maps whether or not it
   could report. The sessions and the scheduler are untouched.
   */
  function WeeklyReset(s: State, weekday: int, adminAvailable: bool): (r: (State, Option<WeeklyReport>))
    ensures weekday != 6 ==> r == (s, None)
    ensures weekday == 6 ==> r.0 == s.(ledger := EmptyLedger)
    ensures r.1.Some? <==> weekday == 6 && adminAvailable
    ensures r.1 == Some(NobodyThisWeek) ==> s.ledger.participations.score == map[]
    ensures r.1.Some? && r.1.value.Summary? ==> r.1.value.rows == Rows(s.ledger)
    ensures r.1.Some? && r.1.value.Summary? && WellFormed(s.ledger.participations) ==>
      forall u :: u in r.1.value.low <==> u in s.ledger.participations.score && s.ledger.participations.score[u] < 5
    ensures r.1.Some? && s.ledger.participations.score != map[] ==> r.1.value.Summary?
    ensures r.1.Some? && s.ledger.participations.score == map[] ==> r.1.value == NobodyThisWeek
  {
    if weekday != 6 then (s, None)
    else
      var parts := s.ledger.participations;
      var report :=
        if !adminAvailable then None
        else if parts.score == map[] then Some(NobodyThisWeek)
        else Some(Summary(Rows(s.ledger), LowOf(parts.order, parts)));
      (s.(ledger := ResetWeek(s.ledger)), report)
  }
}

=== FILE: events.dfy ===
/**
 The message and reaction handlers as one state step: a message in the
 primary lane (plain or "bonus" link), a message in the secondary lane, a
 message with attachments in the sales channel, or a reaction.
 */
module Events {
  import opened Wrappers
  import opened OrderedDict
  import opened LedgerStore
  import opened Attachments
  import opened Photos
  import opened Sessions
  import opened BotState

  /** Where an event happened; every other channel of the server is `OtherChannel`. */
  datatype Channel = PrimaryChannel | SecondaryChannel | PhotoChannel | OtherChannel

  /**
   An inbound event. `hasLink` stands for the marketplace-link pattern
   matching the text and `mentionsBonus` for "bonus" occurring in the
   lower-cased text.
   */
  datatype Event =
    | Message(author: User, authorIsBot: bool, channel: Channel, hasLink: bool, mentionsBonus: bool, attachments: seq<Attachment>)
    | Reaction(user: User, channel: Channel, emoji: string)

  /** The bot's own id, and whether the admin channel (where warnings go) can be found. */
  datatype Env = Env(botId: User, adminAvailable: bool)

  datatype Outcome = Outcome(state: State, warned: set<Warning>)

  /** The validation emoji, U+2764 U+FE0F. */
  const Heart: string := "\U{2764}\U{FE0F}"

  /** `add_warning` behind the `general_channel is not None` guard every caller has. */
  function Raise(l: Ledger, u: User, reason: Reason, when: bool): (r: (Ledger, set<Warning>))
    ensures WarningsRecorded(l, r.0, r.1)
    ensures r.1 == (if when then {Warning(u, reason)} else {})
    ensures r.0 == l.(warnings := r.0.warnings)
    ensures Valid(l) ==> Valid(r.0)
  {
    if when then
      var l' := AddWarning(l, u);
      assert forall v :: Raised({Warning(u, reason)}, v) == if v == u then {reason} else {};
      (l', {Warning(u, reason)})
    else
      assert forall v :: Raised({}, v) == {};
      (l, {})
  }

  /** Adds u to the participants when the lane is open. */
  function Join(p: Primary, u: User): (r: Primary)
    ensures r.participants == p.participants + (if p.active then {u} else {})
    ensures r == p.(participants := r.participants)
  {
    if p.active then p.(participants := p.participants + {u}) else p
  }

  predicate InOneLinkTwoBonus(p: Primary)
  {
    p.active && p.kind == Some(OneLinkTwoBonus)
  }

  /** A qualifying link from u in the primary lane, with or without "bonus". */
  function PrimaryLink(s: State, u: User, mentionsBonus: bool, adminAvailable: bool): (r: Outcome)
    ensures r.state.secondary == s.secondary && r.state.lastTick == s.lastTick
    ensures r.state.ledger.photoCounter == s.ledger.photoCounter && r.state.ledger.photoHashes == s.ledger.photoHashes
    ensures WarningsRecorded(s.ledger, r.state.ledger, r.warned)
  {
    var p := s.primary;
    if mentionsBonus then
      if Lookup(s.ledger.bonus, u) <= 0 then
        var raised := Raise(s.ledger, u, EmptyBonusStock, adminAvailable);
        Outcome(s.(ledger := raised.0, primary := Join(p, u)), raised.1)
      else
        var l := ConsumeBonus(s.ledger, u, 1).0;
        if InOneLinkTwoBonus(p) then
          var n := Get(p.bonusLinksCount, u) + 1;
          var raised := Raise(l, u, TooManyBonusLinks, n > 2 && adminAvailable);
          Outcome(s.(ledger := raised.0, primary := Join(p.(bonusLinksCount := Put(p.bonusLinksCount, u, n)), u)), raised.1)
        else
          assert WarningsRecorded(s.ledger, l, {}) by {
            assert forall v :: Raised({}, v) == {};
          }
          Outcome(s.(ledger := l, primary := Join(p, u)), {})
    else
      var l := AddParticipation(s.ledger, u, 1);
      if InOneLinkTwoBonus(p) then
        var n := Get(p.linksCount, u) + 1;
        var raised := Raise(l, u, TooManyPlainLinks, n > 1 && adminAvailable);
        Outcome(s.(ledger := raised.0, primary := Join(p.(linksCount := Put(p.linksCount, u, n)), u)), raised.1)
      else
        assert WarningsRecorded(s.ledger, l, {}) by {
          assert forall v :: Raised({}, v) == {};
        }
        Outcome(s.(ledger := l, primary := Join(p, u)), {})
  }

  /**
   A "bonus" link never earns a participation. With an empty stock it
   consumes nothing and raises a warning (when the admin channel exists);
   otherwise it takes exactly one bonus and, in an open "1 link + 2 bonus"
   session, counts a bonus link and warns from the third one on. An open
   session gains u as a participant either way.
   */
  lemma BonusLinkEffects(s: State, u: User, adminAvailable: bool)
    ensures var r := PrimaryLink(s, u, true, adminAvailable);
            var stock := Lookup(s.ledger.bonus, u);
            var n := Get(s.primary.bonusLinksCount, u) + 1;
            && r.state.ledger.participations == s.ledger.participations
            && (stock <= 0 ==> r.state.ledger.bonus == s.ledger.bonus)
            && (stock <= 0 ==> r.warned == if adminAvailable then {Warning(u, EmptyBonusStock)} else {})
            && (stock > 0 ==> Lookup(r.state.ledger.bonus, u) == stock - 1)
            && (forall v :: v != u ==> Lookup(r.state.ledger.bonus, v) == Lookup(s.ledger.bonus, v))
            && (stock > 0 && InOneLinkTwoBonus(s.primary) ==>
                  && Get(r.state.primary.bonusLinksCount, u) == n
                  && r.warned == if n > 2 && adminAvailable then {Warning(u, TooManyBonusLinks)} else {})
            && (stock > 0 && !InOneLinkTwoBonus(s.primary) ==> r.warned == {})
            && (!(stock > 0 && InOneLinkTwoBonus(s.primary)) ==> r.state.primary.bonusLinksCount == s.primary.bonusLinksCount)
            && (forall v :: v != u ==> Get(r.state.primary.bonusLinksCount, v) == Get(s.primary.bonusLinksCount, v))
            && r.state.primary.participants == s.primary.participants + (if s.primary.active then {u} else {})
            && r.state.primary.linksCount == s.primary.linksCount
            && r.state.primary.validated == s.primary.validated
            && r.state.primary.active == s.primary.active && r.state.primary.kind == s.primary.kind
  {
  }

  /**
   A plain link earns one participation. An open session gains u as a
   participant; in a "1 link + 2 bonus" session it counts a plain link and
   warns from the second one on. With no open session the lane is untouched.
   */
  lemma PlainLinkEffects(s: State, u: User, adminAvailable: bool)
    ensures var r := PrimaryLink(s, u, false, adminAvailable);
            var n := Get(s.primary.linksCount, u) + 1;
            && Get(r.state.ledger.participations, u) == Get(s.ledger.participations, u) + 1
            && (forall v :: v != u ==> Get(r.state.ledger.participations, v) == Get(s.ledger.participations, v))
            && r.state.ledger.bonus == s.ledger.bonus
            && (InOneLinkTwoBonus(s.primary) ==>
                  && Get(r.state.primary.linksCount, u) == n
                  && r.warned == if n > 1 && adminAvailable then {Warning(u, TooManyPlainLinks)} else {})
            && (InOneLinkTwoBonus(s.primary) && WellFormed(s.primary.linksCount) ==>
                  Sum(r.state.primary.linksCount) == Sum(s.primary.linksCount) + 1)
            && (!InOneLinkTwoBonus(s.primary) ==> r.warned == {} && r.state.primary.linksCount == s.primary.linksCount)
            && (!s.primary.active ==> r.state.primary == s.primary)
            && r.state.primary.participants == s.primary.participants + (if s.primary.active then {u} else {})
            && r.state.primary == s.primary.(participants := r.state.primary.participants, linksCount := r.state.primary.linksCount)
            && (forall v :: v != u ==> Get(r.state.primary.linksCount, v) == Get(s.primary.linksCount, v))
  {
    if InOneLinkTwoBonus(s.primary) && WellFormed(s.primary.linksCount) {
      SumAdd(s.primary.linksCount, u, 1);
    }
  }

  /**
   A qualifying link in the secondary lane, "bonus" or not: one
   participation, and u joins the participants only if that lane is open.
   */
  function SecondaryLink(s: State, u: User): (r: State)
    ensures Get(r.ledger.participations, u) == Get(s.ledger.participations, u) + 1
    ensures forall v :: v != u ==> Get(r.ledger.participations, v) == Get(s.ledger.participations, v)
    ensures r.ledger == s.ledger.(participations := r.ledger.participations)
    ensures r.secondary.participants == s.secondary.participants + (if s.secondary.active then {u} else {})
    ensures r.secondary == s.secondary.(participants := r.secondary.participants)
    ensures r.primary == s.primary && r.lastTick == s.lastTick
  {
    var l := AddParticipation(s.ledger, u, 1);
    if s.secondary.active then
      s.(ledger := l, secondary := s.secondary.(participants := s.secondary.participants + {u}))
    else s.(ledger := l)
  }

  /**
   `on_raw_reaction_add`: a heart from anyone but the bot marks the user as
   validated in the lane it was posted in, if that lane is open; any other
   reaction changes nothing.
   */
  function React(s: State, user: User, channel: Channel, emoji: string, botId: User): (r: State)
    ensures user == botId || emoji != Heart ==> r == s
    ensures r.primary.validated == s.primary.validated +
      (if user != botId && emoji == Heart && channel == PrimaryChannel && s.primary.active then {user} else {})
    ensures r.secondary.validated == s.secondary.validated +
      (if user != botId && emoji == Heart && channel == SecondaryChannel && s.secondary.active then {user} else {})
    ensures r.primary == s.primary.(validated := r.primary.validated)
    ensures r.secondary == s.secondary.(validated := r.secondary.validated)
    ensures r.ledger == s.ledger && r.lastTick == s.lastTick
  {
    if user == botId || emoji != Heart then s
    else if channel == PrimaryChannel && s.primary.active then
      s.(primary := s.primary.(validated := s.primary.validated + {user}))
    else if channel == SecondaryChannel && s.secondary.active then
      s.(secondary := s.secondary.(validated := s.secondary.validated + {user}))
    else s
  }

  /** `on_message` and `on_raw_reaction_add` as one step. Messages from bots are ignored. */
  function Step(s: State, e: Event, env: Env): (r: Outcome)
    ensures r.state.lastTick == s.lastTick
    ensures WarningsRecorded(s.ledger, r.state.ledger, r.warned)
    ensures r.warned != {} ==> env.adminAvailable
    ensures e.Message? && !e.authorIsBot && e.channel == PrimaryChannel && e.hasLink ==>
      r == PrimaryLink(s, e.author, e.mentionsBonus, env.adminAvailable)
    ensures e.Message? && !e.authorIsBot && e.channel == SecondaryChannel && e.hasLink ==>
      r == Outcome(SecondaryLink(s, e.author), {})
    ensures e.Message? && !e.authorIsBot && e.channel == PhotoChannel ==>
      r == Outcome(s.(ledger := PhotoMessage(s.ledger, e.author, e.attachments)), {})
    ensures e.Message? && (e.authorIsBot || e.channel == OtherChannel || (e.channel != PhotoChannel && !e.hasLink)) ==>
      r == Outcome(s, {})
    ensures e.Reaction? ==> r == Outcome(React(s, e.user, e.channel, e.emoji, env.botId), {})
  {
    assert forall v :: Raised({}, v) == {};
    match e
    case Message(author, authorIsBot, channel, hasLink, mentionsBonus, attachments) =>
      if authorIsBot then Outcome(s, {})
      else if channel == PrimaryChannel then
        if hasLink then PrimaryLink(s, author, mentionsBonus, env.adminAvailable) else Outcome(s, {})
      else if channel == SecondaryChannel then
        if hasLink then Outcome(SecondaryLink(s, author), {}) else Outcome(s, {})
      else if channel == PhotoChannel then
        Outcome(s.(ledger := PhotoMessage(s.ledger, author, attachments)), {})
      else Outcome(s, {})
    case Reaction(user, channel, emoji) =>
      Outcome(React(s, user, channel, emoji, env.botId), {})
  }

  lemma PrimaryLinkPreservesConsistent(s: State, u: User, mentionsBonus: bool, adminAvailable: bool)
    requires Consistent(s)
    ensures Consistent(PrimaryLink(s, u, mentionsBonus, adminAvailable).state)
  {
    if mentionsBonus {
      BonusLinkPreservesConsistent(s, u, adminAvailable);
    } else {
      PlainLinkPreservesConsistent(s, u, adminAvailable);
    }
  }

  lemma BonusLinkPreservesConsistent(s: State, u: User, adminAvailable: bool)
    requires Consistent(s)
    ensures Consistent(PrimaryLink(s, u, true, adminAvailable).state)
  {
    BonusLinkEffects(s, u, adminAvailable);
    if !s.primary.active {
      assert PrimaryLink(s, u, true, adminAvailable).state.primary == s.primary;
    }
  }

  /** A counted plain link in a "1 link + 2 bonus" session keeps the lane well formed. */
  lemma CountedLinkKeepsLaneValid(s: State, u: User, adminAvailable: bool)
    requires Consistent(s) && InOneLinkTwoBonus(s.primary)
    ensures PrimaryValid(PrimaryLink(s, u, false, adminAvailable).state.primary)
  {
    var p := s.primary;
    var lc := Put(p.linksCount, u, Get(p.linksCount, u) + 1);
    assert PrimaryLink(s, u, false, adminAvailable).state.primary == p.(linksCount := lc, participants := p.participants + {u});
    assert CountsParticipants(lc, p.participants + {u});
  }

  lemma PlainLinkPreservesConsistent(s: State, u: User, adminAvailable: bool)
    requires Consistent(s)
    ensures Consistent(PrimaryLink(s, u, false, adminAvailable).state)
  {
    var r := PrimaryLink(s, u, false, adminAvailable).state;
    var p := s.primary;
    var l := AddParticipation(s.ledger, u, 1);
    assert Valid(r.ledger) by {
      assert Valid(l);
    }
    if !p.active {
      assert r.primary == p;
    } else if InOneLinkTwoBonus(p) {
      CountedLinkKeepsLaneValid(s, u, adminAvailable);
    } else {
      assert r.primary == p.(participants := p.participants + {u});
    }
  }

  lemma ReactPreservesConsistent(s: State, user: User, channel: Channel, emoji: string, botId: User)
    requires Consistent(s)
    ensures Consistent(React(s, user, channel, emoji, botId))
  {
  }

  /** Every event keeps the ledger non-negative, the photo carry a bit and both lanes well formed. */
  lemma StepPreservesConsistent(s: State, e: Event, env: Env)
    requires Consistent(s)
    ensures Consistent(Step(s, e, env).state)
  {
    match e
    case Message(author, authorIsBot, channel, hasLink, mentionsBonus, attachments) =>
      if authorIsBot {
      } else if channel == PrimaryChannel {
        if hasLink {
          PrimaryLinkPreservesConsistent(s, author, mentionsBonus, env.adminAvailable);
        }
      } else if channel == PhotoChannel {
        PhotoMessageAccumulates(s.ledger, author, attachments);
      }
    case Reaction(user, channel, emoji) =>
      ReactPreservesConsistent(s, user, channel, emoji, env.botId);
  }

  /**
   In an open "1 link + 2 bonus" session, a user with 5 bonus credits posts
   one plain link and then three bonus links: the stock ends at 2, three
   bonus links are counted, and the only warning is the one for the third
   bonus link.
   */
  lemma OneLinkThreeBonusScenario(s: State, u: User)
    requires InOneLinkTwoBonus(s.primary)
    requires u !in s.primary.linksCount.score && u !in s.primary.bonusLinksCount.score
    requires Lookup(s.ledger.bonus, u) == 5
    ensures var plain := PrimaryLink(s, u, false, true);
            var b1 := PrimaryLink(plain.state, u, true, true);
            var b2 := PrimaryLink(b1.state, u, true, true);
            var b3 := PrimaryLink(b2.state, u, true, true);
            && plain.warned == {} && b1.warned == {} && b2.warned == {}
            && b3.warned == {Warning(u, TooManyBonusLinks)}
            && Lookup(b3.state.ledger.bonus, u) == 2
            && Get(b3.state.primary.bonusLinksCount, u) == 3
  {
    var plain := PrimaryLink(s, u, false, true);
    PlainLinkEffects(s, u, true);
    var b1 := PrimaryLink(plain.state, u, true, true);
    BonusLinkEffects(plain.state, u, true);
    var b2 := PrimaryLink(b1.state, u, true, true);
    BonusLinkEffects(b1.state, u, true);
    BonusLinkEffects(b2.state, u, true);
  }
}

=== FILE: ledger.dfy ===
/**
 The per-user weekly ledger: participations, bonus stock, photo counter,
 photo fingerprints and warnings, with the helper operations that update
 them. Participations are an insertion-ordered dictionary because the
 ranking and the weekly report iterate it; the other maps are never
 iterated and are plain maps read with a default of 0.
 */
module LedgerStore {
  import opened OrderedDict

  /** Why a warning was raised; one per call site of `add_warning`. */
  datatype Reason =
    | EmptyBonusStock
    | TooManyBonusLinks
    | TooManyPlainLinks
    | PrimaryNotValidated
    | SecondaryNotValidated

  datatype Warning = Warning(user: User, reason: Reason)

  datatype Ledger = Ledger(
    participations: Dict,
    bonus: map<User, int>,
    photoCounter: map<User, int>,
    photoHashes: map<User, set<string>>,
    warnings: map<User, int>)

  const EmptyLedger: Ledger := Ledger(EmptyDict, map[], map[], map[], map[])

  /** `m.get(u, 0)` */
  function Lookup(m: map<User, int>, u: User): int
  {
    if u in m then m[u] else 0
  }

  predicate AllNonNegative(m: map<User, int>)
  {
    forall u :: u in m ==> m[u] >= 0
  }

  /** Counters are never negative and the photo counter is a single carry bit. */
  predicate Valid(l: Ledger)
  {
    && WellFormed(l.participations)
    && OrderedDict.NonNegative(l.participations)
    && AllNonNegative(l.bonus)
    && AllNonNegative(l.warnings)
    && (forall u :: u in l.photoCounter ==> 0 <= l.photoCounter[u] <= 1)
  }

  /** `add_participation`: only u's participation count moves, by `points`. */
  function AddParticipation(l: Ledger, u: User, points: int): (r: Ledger)
    ensures Get(r.participations, u) == Get(l.participations, u) + points
    ensures forall w :: w != u ==> Get(r.participations, w) == Get(l.participations, w)
    ensures u in l.participations.score ==> r.participations.order == l.participations.order
    ensures u !in l.participations.score ==> r.participations.order == l.participations.order + [u]
    ensures r == l.(participations := r.participations)
    ensures Valid(l) && points >= 0 ==> Valid(r)
  {
    l.(participations := Add(l.participations, u, points))
  }

  /** `add_bonus`: only u's bonus stock moves, by `points`. */
  function AddBonus(l: Ledger, u: User, points: int): (r: Ledger)
    ensures Lookup(r.bonus, u) == Lookup(l.bonus, u) + points
    ensures forall w :: w != u ==> Lookup(r.bonus, w) == Lookup(l.bonus, w)
    ensures r == l.(bonus := r.bonus)
    ensures Valid(l) && points >= 0 ==> Valid(r)
  {
    l.(bonus := l.bonus[u := Lookup(l.bonus, u) + points])
  }

  /**
   `consume_bonus`: takes the smaller of the stock and the request, and
   leaves the ledger untouched when that amount is not positive.
   */
  function ConsumeBonus(l: Ledger, u: User, points: int): (r: (Ledger, int))
    ensures r.1 <= Lookup(l.bonus, u) && r.1 <= points
    ensures r.1 == Lookup(l.bonus, u) || r.1 == points
    ensures r.1 > 0 ==> Lookup(r.0.bonus, u) == Lookup(l.bonus, u) - r.1
    ensures forall w :: w != u ==> Lookup(r.0.bonus, w) == Lookup(l.bonus, w)
    ensures r.0 == l.(bonus := r.0.bonus)
    ensures r.1 <= 0 ==> r.0 == l
    ensures Valid(l) && points >= 0 ==> r.1 >= 0
    ensures Valid(l) ==> Valid(r.0)
  {
    var current := Lookup(l.bonus, u);
    var used := if current < points then current else points;
    if used > 0 then (l.(bonus := l.bonus[u := current - used]), used) else (l, used)
  }

  /** The counter half of `add_warning`: u's warning count goes up by one. */
  function AddWarning(l: Ledger, u: User): (r: Ledger)
    ensures Lookup(r.warnings, u) == Lookup(l.warnings, u) + 1
    ensures forall w :: w != u ==> Lookup(r.warnings, w) == Lookup(l.warnings, w)
    ensures r == l.(warnings := r.warnings)
    ensures Valid(l) ==> Valid(r)
  {
    l.(warnings := l.warnings[u := Lookup(l.warnings, u) + 1])
  }

  /**
   `add_warning` once for each user of a set, as the session recap does;
   each call touches its own user, so the order of the calls is irrelevant.
   */
  function AddWarnings(l: Ledger, us: set<User>): (r: Ledger)
    ensures forall w :: Lookup(r.warnings, w) == Lookup(l.warnings, w) + (if w in us then 1 else 0)
    ensures r == l.(warnings := r.warnings)
    ensures Valid(l) ==> Valid(r)
  {
    l.(warnings := map w | w in l.warnings.Keys + us :: Lookup(l.warnings, w) + (if w in us then 1 else 0))
  }

  /** `remove_warning`: lowers u's count by `count` but never below zero. */
  function RemoveWarning(l: Ledger, u: User, count: int): (r: Ledger)
    ensures Lookup(r.warnings, u) >= 0
    ensures Lookup(r.warnings, u) >= Lookup(l.warnings, u) - count
    ensures Lookup(r.warnings, u) > 0 ==> Lookup(r.warnings, u) == Lookup(l.warnings, u) - count
    ensures forall w :: w != u ==> Lookup(r.warnings, w) == Lookup(l.warnings, w)
    ensures r == l.(warnings := r.warnings)
    ensures Valid(l) ==> Valid(r)
  {
    var current := Lookup(l.warnings, u);
    l.(warnings := l.warnings[u := if current - count > 0 then current - count else 0])
  }

  /** `get_user_photo_counter` */
  function PhotoCounter(l: Ledger, u: User): int
  {
    Lookup(l.photoCounter, u)
  }

  /** `set_user_photo_counter` */
  function SetPhotoCounter(l: Ledger, u: User, value: int): (r: Ledger)
    ensures PhotoCounter(r, u) == value
    ensures forall w :: w != u ==> PhotoCounter(r, w) == PhotoCounter(l, w)
    ensures r == l.(photoCounter := r.photoCounter)
    ensures Valid(l) && 0 <= value <= 1 ==> Valid(r)
  {
    l.(photoCounter := l.photoCounter[u := value])
  }

  /** The fingerprints already counted for u. */
  function Recorded(l: Ledger, u: User): set<string>
  {
    if u in l.photoHashes then l.photoHashes[u] else {}
  }

  /** Replaces the fingerprints recorded for u. */
  function SetRecorded(l: Ledger, u: User, fps: set<string>): (r: Ledger)
    ensures Recorded(r, u) == fps
    ensures forall w :: w != u ==> Recorded(r, w) == Recorded(l, w)
    ensures r == l.(photoHashes := r.photoHashes)
  {
    l.(photoHashes := l.photoHashes[u := fps])
  }

  /** `reset_week`: every map emptied, so every user reads as zero everywhere. */
  function ResetWeek(l: Ledger): (r: Ledger)
    ensures Valid(r)
    ensures r.participations.order == [] && r.participations.score == map[]
    ensures forall u :: Get(r.participations, u) == 0 && Lookup(r.bonus, u) == 0
                     && Lookup(r.warnings, u) == 0 && PhotoCounter(r, u) == 0 && Recorded(r, u) == {}
  {
    EmptyLedger
  }
}

=== FILE: ordered_dict.dfy ===
/**
 An insertion-ordered dictionary from user ids to integers: the model of a
 Python `dict` keyed by user.  Keys remember the order in which they were
 first written, because the bot iterates some of its dictionaries (the
 top-10 ranking, the weekly report and the session link total).
 */
module OrderedDict {

  /** A user id; the bot's string/int id conversions collapse to one number. */
  type User = nat

  datatype Dict = Dict(order: seq<User>, score: map<User, int>)

  const EmptyDict: Dict := Dict([], map[])

  predicate Distinct(s: seq<User>)
  {
    forall i, j :: 0 <= i < j < |s| ==> s[i] != s[j]
  }

  /** The order lists every key exactly once. */
  predicate WellFormed(d: Dict)
  {
    && Distinct(d.order)
    && (forall u :: u in d.order ==> u in d.score)
    && (forall u :: u in d.score ==> u in d.order)
  }

  predicate NonNegative(d: Dict)
  {
    forall u :: u in d.score ==> d.score[u] >= 0
  }

  /** `d.get(u, 0)` */
  function Get(d: Dict, u: User): int
  {
    if u in d.score then d.score[u] else 0
  }

  /** `d[u] = v`: a new key goes to the end of the order, an existing key keeps its place. */
  function Put(d: Dict, u: User, v: int): (r: Dict)
    ensures Get(r, u) == v
    ensures forall w :: w != u ==> Get(r, w) == Get(d, w)
    ensures r.score.Keys == d.score.Keys + {u}
    ensures u in d.score ==> r.order == d.order
    ensures u !in d.score ==> r.order == d.order + [u]
    ensures WellFormed(d) ==> WellFormed(r)
  {
    Dict(if u in d.score then d.order else d.order + [u], d.score[u := v])
  }

  /** `d[u] = d.get(u, 0) + n` */
  function Add(d: Dict, u: User, n: int): (r: Dict)
    ensures Get(r, u) == Get(d, u) + n
    ensures forall w :: w != u ==> Get(r, w) == Get(d, w)
    ensures u in r.score
    ensures u in d.score ==> r.order == d.order
    ensures u !in d.score ==> r.order == d.order + [u]
    ensures WellFormed(d) ==> WellFormed(r)
    ensures NonNegative(d) && n >= 0 ==> NonNegative(r)
  {
    Put(d, u, Get(d, u) + n)
  }

  /** The (key, value) pairs in insertion order: `list(d.items())`. */
  function Items(d: Dict): (r: seq<(User, int)>)
    ensures |r| == |d.order|
    ensures forall i :: 0 <= i < |r| ==> r[i] == (d.order[i], Get(d, d.order[i]))
  {
    seq(|d.order|, i requires 0 <= i < |d.order| => (d.order[i], Get(d, d.order[i])))
  }

  function SumOver(keys: seq<User>, d: Dict): int
  {
    if keys == [] then 0 else Get(d, keys[0]) + SumOver(keys[1..], d)
  }

  /** `sum(d.values())` */
  function Sum(d: Dict): int
  {
    SumOver(d.order, d)
  }

  lemma {:induction false} SumOverUnchanged(keys: seq<User>, d: Dict, d': Dict)
    requires forall w :: w in keys ==> Get(d', w) == Get(d, w)
    ensures SumOver(keys, d') == SumOver(keys, d)
  {
    if keys != [] {
      SumOverUnchanged(keys[1..], d, d');
    }
  }

  lemma {:induction false} SumOverBump(keys: seq<User>, d: Dict, d': Dict, u: User, n: int)
    requires Distinct(keys) && u in keys
    requires Get(d', u) == Get(d, u) + n
    requires forall w :: w != u ==> Get(d', w) == Get(d, w)
    ensures SumOver(keys, d') == SumOver(keys, d) + n
  {
    if keys[0] == u {
      assert u !in keys[1..];
      SumOverUnchanged(keys[1..], d, d');
    } else {
      SumOverBump(keys[1..], d, d', u, n);
    }
  }

  /** Adding n to one entry adds n to the sum of the values, whether or not the key was new. */
  lemma SumAdd(d: Dict, u: User, n: int)
    requires WellFormed(d)
    ensures Sum(Add(d, u, n)) == Sum(d) + n
  {
    var r := Add(d, u, n);
    if u in d.score {
      SumOverBump(d.order, d, r, u, n);
    } else {
      assert Get(d, u) == 0;
      SumOverUnchanged(d.order, d, r);
      SumOverAppend(d.order, u, r);
    }
  }

  lemma {:induction false} SumOverAppend(keys: seq<User>, u: User, d: Dict)
    ensures SumOver(keys + [u], d) == SumOver(keys, d) + Get(d, u)
  {
    if keys == [] {
      assert [u][1..] == [];
    } else {
      assert (keys + [u])[1..] == keys[1..] + [u];
      SumOverAppend(keys[1..], u, d);
    }
  }

  /** A dict with no negative value has a non-negative sum. */
  lemma SumNonNegative(d: Dict)
    requires NonNegative(d)
    ensures Sum(d) >= 0
  {
    SumOverNonNegative(d.order, d);
  }

  lemma {:induction false} SumOverNonNegative(keys: seq<User>, d: Dict)
    requires NonNegative(d)
    ensures SumOver(keys, d) >= 0
  {
    if keys != [] {
      SumOverNonNegative(keys[1..], d);
    }
  }
}

=== FILE: photos.dfy ===
/**
 The photo-to-bonus accumulator of the sales channel: every attachment whose
 fingerprint the user has not posted before counts once, and each two counted
 attachments become one bonus, the odd one carried to the next message.
 */
module Photos {
  import opened OrderedDict
  import opened LedgerStore
  import opened Attachments

  function Fingerprints(atts: seq<Attachment>): (fps: seq<string>)
    ensures |fps| == |atts|
    ensures forall i :: 0 <= i < |atts| ==> fps[i] == Fingerprint(atts[i])
  {
    seq(|atts|, i requires 0 <= i < |atts| => Fingerprint(atts[i]))
  }

  /** The set of elements of a sequence. */
  function Elems<T>(s: seq<T>): set<T>
  {
    if s == [] then {} else {s[0]} + Elems(s[1..])
  }

  /**
   `add_user_photo_hash` on the user's recorded fingerprints: records fp and
   reports whether it was new.
   */
  function Remember<T>(seen: set<T>, fp: T): (r: (set<T>, bool))
    ensures r.0 == seen + {fp}
    ensures r.1 <==> fp !in seen
  {
    if fp in seen then (seen, false) else (seen + {fp}, true)
  }

  lemma FreshStep<T>(seen: set<T>, fps: seq<T>)
    requires |fps| > 0
    ensures |Elems(fps) - seen| == |Elems(fps[1..]) - (seen + {fps[0]})| + (if fps[0] in seen then 0 else 1)
  {
    var f, rest := fps[0], Elems(fps[1..]);
    assert Elems(fps) - seen == (rest - (seen + {f})) + ({f} - seen);
    assert (rest - (seen + {f})) !! ({f} - seen);
  }

  /** The loop over a message's attachments: remembers each fingerprint in turn and counts those that were new. */
  function RememberAll<T>(seen: set<T>, fps: seq<T>): (r: (set<T>, nat))
    ensures r.0 == seen + Elems(fps)
    decreases fps
  {
    if fps == [] then (seen, 0)
    else
      var first := Remember(seen, fps[0]);
      var rest := RememberAll(first.0, fps[1..]);
      (rest.0, rest.1 + (if first.1 then 1 else 0))
  }

  /**
   A repeat, already recorded or earlier in the same message, counts
   nothing: the count is the number of distinct fingerprints of the message
   not recorded before.
   */
  lemma {:induction false} RememberAllCountsFresh<T>(seen: set<T>, fps: seq<T>)
    ensures RememberAll(seen, fps).1 == |Elems(fps) - seen|
    decreases fps
  {
    if fps != [] {
      RememberAllCountsFresh(seen + {fps[0]}, fps[1..]);
      FreshStep(seen, fps);
    }
  }

  /** The fingerprints of a message that the user has not posted before. */
  function Fresh(l: Ledger, u: User, atts: seq<Attachment>): set<string>
  {
    Elems(Fingerprints(atts)) - Recorded(l, u)
  }

  /**
   The counter arithmetic once k > 0 new attachments are known: the carry
   plus k is split into whole bonuses and a new carry.
   */
  function Credit(l: Ledger, u: User, k: nat): (r: Ledger)
    requires k > 0
    ensures PhotoCounter(l, u) >= 0 ==> Lookup(r.bonus, u) == Lookup(l.bonus, u) + (PhotoCounter(l, u) + k) / 2
    ensures PhotoCounter(l, u) >= 0 ==> PhotoCounter(r, u) == (PhotoCounter(l, u) + k) % 2
    ensures forall w :: w != u ==> Lookup(r.bonus, w) == Lookup(l.bonus, w) && PhotoCounter(r, w) == PhotoCounter(l, w)
    ensures r == l.(bonus := r.bonus, photoCounter := r.photoCounter)
    ensures Valid(l) ==> Valid(r)
  {
    var count := PhotoCounter(l, u) + k;
    var gained := count / 2;
    var l1 := if gained > 0 then AddBonus(l, u, gained) else l;
    SetPhotoCounter(l1, u, if gained > 0 then count % 2 else count)
  }

  /**
   The sales-channel handler for one message of user u: records the
   fingerprints and credits the new ones; a message with no new
   fingerprint changes nothing.
   */
  function PhotoMessage(l: Ledger, u: User, atts: seq<Attachment>): (r: Ledger)
    ensures Fresh(l, u, atts) == {} ==> r == l
    ensures Fresh(l, u, atts) != {} ==> r == Credit(SetRecorded(l, u, Recorded(l, u) + Elems(Fingerprints(atts))), u, |Fresh(l, u, atts)|)
  {
    if atts == [] then l
    else
      var remembered := RememberAll(Recorded(l, u), Fingerprints(atts));
      RememberAllCountsFresh(Recorded(l, u), Fingerprints(atts));
      if remembered.1 == 0 then l
      else Credit(SetRecorded(l, u, remembered.0), u, remembered.1)
  }

  /**
   With k new fingerprints and carry c, the bonus grows by (c + k) / 2 and
   the carry becomes (c + k) % 2; everything recorded is remembered; nothing
   else moves, and the ledger stays valid.
   */
  lemma PhotoMessageAccumulates(l: Ledger, u: User, atts: seq<Attachment>)
    requires Valid(l)
    ensures var r := PhotoMessage(l, u, atts);
            var k, c := |Fresh(l, u, atts)|, PhotoCounter(l, u);
            && Lookup(r.bonus, u) == Lookup(l.bonus, u) + (c + k) / 2
            && PhotoCounter(r, u) == (c + k) % 2
            && Recorded(r, u) == Recorded(l, u) + Elems(Fingerprints(atts))
            && (forall w :: w != u ==> Lookup(r.bonus, w) == Lookup(l.bonus, w))
            && (forall w :: w != u ==> PhotoCounter(r, w) == PhotoCounter(l, w) && Recorded(r, w) == Recorded(l, w))
            && r.participations == l.participations && r.warnings == l.warnings
            && Valid(r)
  {
    var k := |Fresh(l, u, atts)|;
    if k == 0 {
      assert Elems(Fingerprints(atts)) <= Recorded(l, u);
      assert Recorded(l, u) + Elems(Fingerprints(atts)) == Recorded(l, u);
    } else {
      RecordThenCredit(l, u, Recorded(l, u) + Elems(Fingerprints(atts)), k);
    }
  }

  /** Recording a set of fingerprints and then crediting k photos, for any set and any k > 0. */
  lemma RecordThenCredit(l: Ledger, u: User, fps: set<string>, k: nat)
    requires Valid(l) && k > 0
    ensures var r := Credit(SetRecorded(l, u, fps), u, k);
            var c := PhotoCounter(l, u);
            && Lookup(r.bonus, u) == Lookup(l.bonus, u) + (c + k) / 2
            && PhotoCounter(r, u) == (c + k) % 2
            && Recorded(r, u) == fps
            && (forall w :: w != u ==> Lookup(r.bonus, w) == Lookup(l.bonus, w))
            && (forall w :: w != u ==> PhotoCounter(r, w) == PhotoCounter(l, w) && Recorded(r, w) == Recorded(l, w))
            && r.participations == l.participations && r.warnings == l.warnings
            && Valid(r)
  {
    var l1 := SetRecorded(l, u, fps);
    assert Valid(l1) && l1.bonus == l.bonus && l1.photoCounter == l.photoCounter;
  }

  /**
   Two photos are worth one bonus: twice the bonus plus the carry grows by
   exactly the number of new fingerprints, and the carry stays 0 or 1.
   */
  lemma PhotoMessageConserves(l: Ledger, u: User, atts: seq<Attachment>)
    requires Valid(l)
    ensures var r := PhotoMessage(l, u, atts);
            && 2 * Lookup(r.bonus, u) + PhotoCounter(r, u) == 2 * Lookup(l.bonus, u) + PhotoCounter(l, u) + |Fresh(l, u, atts)|
            && 0 <= PhotoCounter(r, u) <= 1
  {
  }

  /** Posting the same attachments a second time grants nothing and changes nothing. */
  lemma PhotoMessageIdempotent(l: Ledger, u: User, atts: seq<Attachment>)
    ensures PhotoMessage(PhotoMessage(l, u, atts), u, atts) == PhotoMessage(l, u, atts)
  {
    var r := PhotoMessage(l, u, atts);
    assert Fresh(r, u, atts) == {};
  }
}

=== FILE: ranking.dfy ===
/**
 The top-10 ranking of `get_top_10`: the participation items in insertion
 order, sorted by score, highest first, with Python's stable sort (equal
 scores keep their insertion order), cut to the first ten.
 */
module Ranking {
  import opened OrderedDict

  type Entry = (User, int)

  predicate NonIncreasing(s: seq<Entry>)
  {
    forall i, j :: 0 <= i < j < |s| ==> s[i].1 >= s[j].1
  }

  /** The entries of s whose score is v, in their order in s. */
  function WithScore(s: seq<Entry>, v: int): seq<Entry>
  {
    if s == [] then []
    else (if s[0].1 == v then [s[0]] else []) + WithScore(s[1..], v)
  }

  /** Inserts x in front of the first entry whose score does not exceed x's. */
  function Insert(x: Entry, s: seq<Entry>): (r: seq<Entry>)
    ensures multiset(r) == multiset(s) + multiset{x}
  {
    if s == [] || x.1 >= s[0].1 then
      [x] + s
    else
      assert s == [s[0]] + s[1..];
      [s[0]] + Insert(x, s[1..])
  }

  lemma {:induction false} InsertKeepsOrder(x: Entry, s: seq<Entry>)
    requires NonIncreasing(s)
    ensures NonIncreasing(Insert(x, s))
  {
    if s == [] || x.1 >= s[0].1 {
    } else {
      var t := Insert(x, s[1..]);
      InsertKeepsOrder(x, s[1..]);
      forall e | e in t ensures s[0].1 >= e.1 {
        assert e in multiset(t);
        if e != x {
          assert e in multiset(s[1..]);
        }
      }
      var r := [s[0]] + t;
      forall i, j | 0 <= i < j < |r| ensures r[i].1 >= r[j].1 {
        if i == 0 {
          assert r[j] == t[j - 1];
          assert r[j] in t;
        } else {
          assert r[i] == t[i - 1] && r[j] == t[j - 1];
        }
      }
    }
  }

  lemma {:induction false} InsertKeepsTies(x: Entry, s: seq<Entry>, v: int)
    ensures WithScore(Insert(x, s), v) == (if x.1 == v then [x] else []) + WithScore(s, v)
  {
    if s == [] || x.1 >= s[0].1 {
      assert ([x] + s)[1..] == s;
    } else {
      var t := Insert(x, s[1..]);
      assert ([s[0]] + t)[1..] == t;
      InsertKeepsTies(x, s[1..], v);
    }
  }

  /**
   Stable sort by score, highest first: Python's `sort(key=score, reverse=True)`.
   */
  function SortDesc(s: seq<Entry>): (r: seq<Entry>)
    ensures multiset(r) == multiset(s)
    ensures |r| == |s|
  {
    if s == [] then []
    else
      assert s == [s[0]] + s[1..];
      Insert(s[0], SortDesc(s[1..]))
  }

  /**
   The sort is a permutation ordered by score, and the entries of any one
   score appear in the same relative order as in the input.
   */
  lemma {:induction false} SortDescSortsStably(s: seq<Entry>)
    ensures NonIncreasing(SortDesc(s))
    ensures forall v :: WithScore(SortDesc(s), v) == WithScore(s, v)
  {
    if s != [] {
      SortDescSortsStably(s[1..]);
      InsertKeepsOrder(s[0], SortDesc(s[1..]));
      forall v ensures WithScore(SortDesc(s), v) == WithScore(s, v) {
        InsertKeepsTies(s[0], SortDesc(s[1..]), v);
      }
    }
  }

  function Min(a: int, b: int): int
  {
    if a < b then a else b
  }

  /** `get_top_10`: the first ten entries of the stable descending sort of the items. */
  function Top10(d: Dict): (r: seq<Entry>)
    ensures |r| == Min(10, |d.order|)
    ensures r == SortDesc(Items(d))[..|r|]
  {
    var sorted := SortDesc(Items(d));
    sorted[..Min(10, |sorted|)]
  }

  lemma ItemOf(d: Dict, e: Entry)
    requires WellFormed(d)
    requires e in multiset(Items(d))
    ensures e.0 in d.score && e.1 == d.score[e.0]
  {
    var items := Items(d);
    assert e in items;
    var k :| 0 <= k < |items| && items[k] == e;
  }

  /**
   The ranking holds at most ten entries, each a user's current score,
   highest first; every user left out scores no more than the tenth.
   */
  lemma Top10Ranks(d: Dict)
    requires WellFormed(d)
    ensures |Top10(d)| <= 10
    ensures NonIncreasing(Top10(d))
    ensures forall i :: 0 <= i < |Top10(d)| ==> Top10(d)[i].0 in d.score && Top10(d)[i].1 == d.score[Top10(d)[i].0]
    ensures forall u :: u in d.score && (u, d.score[u]) !in Top10(d) ==> |Top10(d)| == 10 && d.score[u] <= Top10(d)[9].1
  {
    var items := Items(d);
    var sorted := SortDesc(items);
    var r := Top10(d);
    SortDescSortsStably(items);
    forall i | 0 <= i < |r| ensures r[i].0 in d.score && r[i].1 == d.score[r[i].0] {
      assert r[i] == sorted[i];
      assert r[i] in multiset(sorted);
      ItemOf(d, r[i]);
    }
    forall u | u in d.score && (u, d.score[u]) !in r ensures |r| == 10 && d.score[u] <= r[9].1 {
      var k :| 0 <= k < |d.order| && d.order[k] == u;
      assert items[k] == (u, d.score[u]);
      assert items[k] in multiset(sorted);
      var j :| 0 <= j < |sorted| && sorted[j] == items[k];
      if j < |r| {
        assert r[j] == sorted[j];
      }
      assert r[9] == sorted[9];
    }
  }
}

=== FILE: schedule.dfy ===
/**
 The scheduler's rule tables: what each lane does at a given hour and
 minute of the reference time zone. The primary lane's rules are tried in
 order and the first match wins.
 */
module Schedule {
  import opened Sessions

  /** What the primary lane does in a minute. */
  datatype Action = Open(kind: Kind) | Close | Nothing

  /** What the secondary lane does in a minute; it has a single kind of session. */
  datatype HourlyAction = OpenHour | CloseHour | Idle

  /** The secondary lane opens on the hour and closes at minute 59, every hour. */
  function SecondaryRule(minute: int): (a: HourlyAction)
    ensures a == OpenHour <==> minute == 0
    ensures a == CloseHour <==> minute == 59
  {
    if minute == 0 then OpenHour else if minute == 59 then CloseHour else Idle
  }

  const TenFavsStarts: set<(int, int)> := {(10, 0), (14, 0), (20, 0)}
  const TenFavsEnds: set<(int, int)> := {(10, 15), (14, 15), (20, 15)}
  const FiveFavsStarts: set<(int, int)> := {(7, 0), (11, 0), (15, 0), (18, 0), (21, 0)}
  const FiveFavsEnds: set<(int, int)> := {(7, 15), (11, 15), (15, 15), (18, 15), (21, 15)}

  /** The primary lane's rules in the order the scheduler tries them. */
  function PrimaryRule(hour: int, minute: int): Action
  {
    if hour == 12 && minute == 30 then Open(Meal)
    else if hour == 13 && minute == 30 then Close
    else if hour == 19 && minute == 0 then Open(Meal)
    else if hour == 20 && minute == 0 then Close
    else if (hour, minute) in TenFavsStarts then Open(TenFavs)
    else if (hour, minute) in TenFavsEnds then Close
    else if (hour, minute) in FiveFavsStarts then Open(FiveFavs)
    else if (hour, minute) in FiveFavsEnds then Close
    else if minute in {0, 15, 30, 45} then Open(OneLinkTwoBonus)
    else if minute in {14, 29, 44, 59} then Close
    else Nothing
  }

  /**
   The table in closed form. The 20:00 entry of the 10-favs starts is
   shadowed by the evening meal close, and the meal and favs slots take
   the place of the default session there.
   */
  lemma PrimaryRuleTable(hour: int, minute: int)
    ensures PrimaryRule(hour, minute) == Open(Meal) <==> (hour, minute) in {(12, 30), (19, 0)}
    ensures PrimaryRule(hour, minute) == Open(TenFavs) <==> (hour, minute) in {(10, 0), (14, 0)}
    ensures PrimaryRule(hour, minute) == Open(FiveFavs) <==> minute == 0 && hour in {7, 11, 15, 18, 21}
    ensures PrimaryRule(hour, minute) == Open(OneLinkTwoBonus) <==>
      || (minute == 0 && hour !in {7, 10, 11, 14, 15, 18, 19, 20, 21})
      || (minute == 15 && hour !in {7, 10, 11, 14, 15, 18, 20, 21})
      || (minute == 30 && hour !in {12, 13})
      || minute == 45
    ensures PrimaryRule(hour, minute) == Close <==>
      || minute in {14, 29, 44, 59}
      || (hour, minute) in {(13, 30), (20, 0)}
      || (minute == 15 && hour in {7, 10, 11, 14, 15, 18, 20, 21})
  {
  }

  /**
   Every primary session is closed by the default rule 14 minutes after it
   opens, the 12:30 and 19:00 meal sessions and the 15-minute favs
   sessions included.
   */
  lemma EveryOpenClosedFourteenMinutesLater(hour: int, minute: int)
    requires PrimaryRule(hour, minute).Open?
    ensures PrimaryRule(hour, minute + 14) == Close
  {
  }
}

=== FILE: sessions.dfy ===
/**
 The two session lanes. The primary lane (the Vinted boost channel) knows
 the kind of session it runs and, in "1 link + 2 bonus" sessions, counts
 each participant's plain and bonus links; the secondary lane (the Clemz
 boost channel) only tracks participants and validations. Starting a lane
 wipes it; closing an open lane judges its participants and resets it.
 */
module Sessions {
  import opened Wrappers
  import opened OrderedDict
  import opened LedgerStore

  /** `"1lien2bonus"`, `"10favs"`, `"5favs"`, `"repas"` */
  datatype Kind = OneLinkTwoBonus | TenFavs | FiveFavs | Meal

  datatype Primary = Primary(
    active: bool,
    kind: Option<Kind>,
    participants: set<User>,
    linksCount: Dict,
    bonusLinksCount: Dict,
    validated: set<User>)

  datatype Secondary = Secondary(active: bool, participants: set<User>, validated: set<User>)

  const IdlePrimary: Primary := Primary(false, None, {}, EmptyDict, EmptyDict, {})
  const IdleSecondary: Secondary := Secondary(false, {}, {})

  /** Per-user link counters only exist for participants, and count at least one link. */
  predicate CountsParticipants(d: Dict, participants: set<User>)
  {
    && WellFormed(d)
    && forall u :: u in d.score ==> u in participants && d.score[u] >= 1
  }

  /**
   An idle lane holds nothing; only a "1 link + 2 bonus" session counts
   links, and only for its participants.
   */
  predicate PrimaryValid(p: Primary)
  {
    && (!p.active ==> p == IdlePrimary)
    && (p.active ==> p.kind.Some?)
    && (p.kind != Some(OneLinkTwoBonus) ==> p.linksCount == EmptyDict && p.bonusLinksCount == EmptyDict)
    && CountsParticipants(p.linksCount, p.participants)
    && CountsParticipants(p.bonusLinksCount, p.participants)
  }

  predicate SecondaryValid(s: Secondary)
  {
    !s.active ==> s == IdleSecondary
  }

  /**
   `start_vinted_session`: from any state, open or not, the lane becomes an
   open session of the given kind with nothing recorded; an open session is
   dropped without a recap.
   */
  function StartPrimary(p: Primary, kind: Kind): (r: Primary)
    ensures r == IdlePrimary.(active := true, kind := Some(kind))
    ensures PrimaryValid(r)
  {
    Primary(true, Some(kind), {}, EmptyDict, EmptyDict, {})
  }

  /** `start_clemz_session`: the same reset for the secondary lane. */
  function StartSecondary(s: Secondary): (r: Secondary)
    ensures r == IdleSecondary.(active := true)
    ensures SecondaryValid(r)
  {
    Secondary(true, {}, {})
  }

  /** The outcome of a recap for a lane that had participants. */
  datatype Recap = NoParticipants | Verdict(ok: set<User>, notOk: set<User>)

  /**
   The judgement of a closing session: a lone participant passes without a
   heart; otherwise participants who reacted pass and the others fail.
   */
  function Judge(participants: set<User>, validated: set<User>): (r: Recap)
    ensures r.NoParticipants? <==> participants == {}
    ensures r.Verdict? ==> r.ok + r.notOk == participants && r.ok !! r.notOk
    ensures r.Verdict? ==> forall u :: u in r.notOk <==> u in participants && u !in validated && |participants| >= 2
  {
    if participants == {} then NoParticipants
    else if |participants| == 1 then Verdict(participants, {})
    else Verdict(participants * validated, participants - validated)
  }

  /** One warning with the given reason per failing user, but only when the admin channel exists. */
  function WarningsFor(r: Recap, reason: Reason, adminAvailable: bool): (ws: set<Warning>)
    ensures forall w :: w in ws <==> adminAvailable && r.Verdict? && w.user in r.notOk && w.reason == reason
  {
    if adminAvailable && r.Verdict? then set u | u in r.notOk :: Warning(u, reason) else {}
  }

  function WarnedUsers(ws: set<Warning>): set<User>
  {
    set w | w in ws :: w.user
  }

  datatype PrimaryClosing = PrimaryClosing(
    lane: Primary,
    ledger: Ledger,
    recap: Option<Recap>,
    linkTotal: int,
    warned: set<Warning>)

  /**
   `end_vinted_session_recap`: on an idle lane nothing happens; otherwise
   the participants are judged, each failing user is warned when the admin
   channel exists, the plain links of the session are totalled, and the
   lane is reset.
   */
  function ClosePrimary(p: Primary, l: Ledger, adminAvailable: bool): (r: PrimaryClosing)
    ensures !p.active ==> r == PrimaryClosing(p, l, None, 0, {})
    ensures p.active ==> r.lane == IdlePrimary && r.recap == Some(Judge(p.participants, p.validated))
    ensures p.active ==> r.linkTotal == Sum(p.linksCount)
    ensures PrimaryValid(p) ==> r.linkTotal >= 0
    ensures forall w :: w in r.warned <==>
      p.active && adminAvailable && w.user in p.participants && w.user !in p.validated
      && |p.participants| >= 2 && w.reason == PrimaryNotValidated
    ensures forall u :: Lookup(r.ledger.warnings, u) == Lookup(l.warnings, u) + (if Warning(u, PrimaryNotValidated) in r.warned then 1 else 0)
    ensures r.ledger == l.(warnings := r.ledger.warnings)
    ensures Valid(l) ==> Valid(r.ledger)
  {
    if !p.active then PrimaryClosing(p, l, None, 0, {})
    else
      var recap := Judge(p.participants, p.validated);
      var warned := WarningsFor(recap, PrimaryNotValidated, adminAvailable);
      var users := WarnedUsers(warned);
      assert forall u :: u in users <==> Warning(u, PrimaryNotValidated) in warned;
      assert PrimaryValid(p) ==> Sum(p.linksCount) >= 0 by {
        if PrimaryValid(p) {
          SumNonNegative(p.linksCount);
        }
      }
      PrimaryClosing(IdlePrimary, AddWarnings(l, users), Some(recap), Sum(p.linksCount), warned)
  }

  datatype SecondaryClosing = SecondaryClosing(
    lane: Secondary,
    ledger: Ledger,
    recap: Option<Recap>,
    warned: set<Warning>)

  /** `end_clemz_session_recap`: the same judgement for the secondary lane, without a link total. */
  function CloseSecondary(s: Secondary, l: Ledger, adminAvailable: bool): (r: SecondaryClosing)
    ensures !s.active ==> r == SecondaryClosing(s, l, None, {})
    ensures s.active ==> r.lane == IdleSecondary && r.recap == Some(Judge(s.participants, s.validated))
    ensures forall w :: w in r.warned <==>
      s.active && adminAvailable && w.user in s.participants && w.user !in s.validated
      && |s.participants| >= 2 && w.reason == SecondaryNotValidated
    ensures forall u :: Lookup(r.ledger.warnings, u) == Lookup(l.warnings, u) + (if Warning(u, SecondaryNotValidated) in r.warned then 1 else 0)
    ensures r.ledger == l.(warnings := r.ledger.warnings)
    ensures Valid(l) ==> Valid(r.ledger)
  {
    if !s.active then SecondaryClosing(s, l, None, {})
    else
      var recap := Judge(s.participants, s.validated);
      var warned := WarningsFor(recap, SecondaryNotValidated, adminAvailable);
      var users := WarnedUsers(warned);
      assert forall u :: u in users <==> Warning(u, SecondaryNotValidated) in warned;
      SecondaryClosing(IdleSecondary, AddWarnings(l, users), Some(recap), warned)
  }

  /** A lone participant passes even without reacting, and nobody is warned. */
  lemma LoneParticipantPasses(p: Primary, l: Ledger, adminAvailable: bool, u: User)
    requires p.active && p.participants == {u}
    ensures ClosePrimary(p, l, adminAvailable).recap == Some(Verdict({u}, {}))
    ensures ClosePrimary(p, l, adminAvailable).warned == {}
  {
    assert |p.participants| == 1;
    assert forall w :: w !in ClosePrimary(p, l, adminAvailable).warned;
  }

  /**
   With participants {a, b} and only a reacting, a passes, b fails, and b
   receives exactly one warning when the admin channel exists.
   */
  lemma OneOfTwoUnvalidated(p: Primary, l: Ledger, a: User, b: User)
    requires p.active && a != b && p.participants == {a, b} && p.validated == {a}
    ensures ClosePrimary(p, l, true).recap == Some(Verdict({a}, {b}))
    ensures ClosePrimary(p, l, true).warned == {Warning(b, PrimaryNotValidated)}
    ensures Lookup(ClosePrimary(p, l, true).ledger.warnings, b) == Lookup(l.warnings, b) + 1
    ensures Lookup(ClosePrimary(p, l, true).ledger.warnings, a) == Lookup(l.warnings, a)
  {
    var r := ClosePrimary(p, l, true);
    assert |p.participants| == 2;
    assert p.participants * p.validated == {a};
    assert p.participants - p.validated == {b};
    assert Warning(b, PrimaryNotValidated) in r.warned;
    assert r.warned == {Warning(b, PrimaryNotValidated)};
  }

  /**
   The recap's link total only reads the plain-link counters, which only a
   "1 link + 2 bonus" session fills: any other kind of session reports 0
   links however many links were posted.
   */
  lemma LinkTotalOnlyCountsOneLinkTwoBonus(p: Primary, l: Ledger, adminAvailable: bool)
    requires PrimaryValid(p) && p.active && p.kind != Some(OneLinkTwoBonus)
    ensures ClosePrimary(p, l, adminAvailable).linkTotal == 0
  {
  }
}

=== FILE: state.dfy ===
/** The whole mutable state of the bot: the ledger, both lanes and the scheduler's last minute. */
module BotState {
  import opened Wrappers
  import opened OrderedDict
  import opened LedgerStore
  import opened Sessions

  /** `(date, hour, minute)`, the scheduler's duplicate-minute key. */
  datatype MinuteKey = MinuteKey(date: int, hour: int, minute: int)

  datatype State = State(
    ledger: Ledger,
    primary: Primary,
    secondary: Secondary,
    lastTick: Option<MinuteKey>)

  /** The invariants every reachable state keeps. */
  predicate Consistent(s: State)
  {
    && Valid(s.ledger)
    && PrimaryValid(s.primary)
    && SecondaryValid(s.secondary)
  }

  /** The state at start-up: an empty ledger, both lanes idle, no minute processed yet. */
  const Initial: State := State(EmptyLedger, IdlePrimary, IdleSecondary, None)

  /** The start-up state is consistent, so every state reached by events and ticks is. */
  lemma InitialConsistent()
    ensures Consistent(Initial)
    ensures forall u :: Lookup(Initial.ledger.warnings, u) == 0 && Get(Initial.ledger.participations, u) == 0
  {
  }

  /** The reasons for which u was warned in one batch of warnings. */
  function Raised(ws: set<Warning>, u: User): set<Reason>
  {
    set w | w in ws && w.user == u :: w.reason
  }

  /** Every warning notice comes with exactly one increment of that user's counter. */
  ghost predicate WarningsRecorded(before: Ledger, after: Ledger, ws: set<Warning>)
  {
    forall u :: Lookup(after.warnings, u) == Lookup(before.warnings, u) + |Raised(ws, u)|
  }

  /** Warnings that all carry the same reason raise that reason once per warned user. */
  lemma RaisedBySingleReason(ws: set<Warning>, reason: Reason, u: User)
    requires forall w :: w in ws ==> w.reason == reason
    ensures Raised(ws, u) == if Warning(u, reason) in ws then {reason} else {}
  {
  }

  /** Two batches of warnings with no reason in common, recorded one after the other. */
  lemma WarningsRecordedCompose(l0: Ledger, l1: Ledger, l2: Ledger, ws1: set<Warning>, ws2: set<Warning>)
    requires WarningsRecorded(l0, l1, ws1) && WarningsRecorded(l1, l2, ws2)
    requires forall w1, w2 :: w1 in ws1 && w2 in ws2 ==> w1.reason != w2.reason
    ensures WarningsRecorded(l0, l2, ws1 + ws2)
  {
    forall u ensures Lookup(l2.warnings, u) == Lookup(l0.warnings, u) + |Raised(ws1 + ws2, u)| {
      assert Raised(ws1 + ws2, u) == Raised(ws1, u) + Raised(ws2, u);
      assert Raised(ws1, u) !! Raised(ws2, u);
    }
  }
}

=== FILE: wrappers.dfy ===
/** The optional value used where the bot stores `None`. */
module Wrappers {

  datatype Option<+T> = None | Some(value: T)
}
